=== FILE: README.md ===
# Plastic-verification ledger: a Dafny model

This project models the hash-linked ledger of the plastic-verification system. The backend ledger
(`backend/blockchain.py`) records one block per verification event. Each event carries a request
identifier, a plastic type, a confidence score, a digest of the classified image and a status. The
ledger keeps its chain consistent with its peers by pulling their chains and resolving conflicts. The
demonstration ledger (`blockchain_demo/blockchain/blockchain.py`) seals, seeds and appends blocks in
the same way. Its payload is a base64 image and a list of numbers.

Modules, one file each:

- `Common` (`common.dfy`): `Option`, and `Float`, an opaque binary64 bit pattern.
- `Chain` (`chain.dfy`): the logic both ledgers share. It defines the block header and block,
  sealing, the genesis block and append. It also has the validation loop with its two diagnostics:
  the hash test and the link test.
- `BackendBlock` (`backend_block.dfy`): the backend payload and the dictionary form of a block. It
  covers `to_dict`, rebuilding blocks on load and replace, and the peer-chain check
  `is_external_chain_valid`.
- `BackendLedger` (`backend_ledger.dfy`): the `Blockchain` class. It covers start-up seeding,
  `add_block_from_data`, `register_node`, `replace_chain`, `resolve_conflicts` and `auto_sync`.
- `DemoLedger` (`demo_ledger.dfy`): the demonstration `Block` and `Blockchain`.

The digest (SHA-256 over key-sorted JSON text) is a parameter `h` from a block header to a string.
Every result therefore holds for any digest function. Only the two tamper lemmas,
`Chain.TamperDetected` and `Chain.TamperLocated`, assume that `h` is injective
(`Chain.Injective`). A peer's answer to the chain request is an `Option` of its block
dictionaries. `None` stands for a request that raised or returned a status other than 200. The
answers are listed in the order the peer set is iterated.

Two behaviours of the code worth stating:

- Both validation loops start at block 1. The genesis block's digest is never recomputed, and a
  chain of zero or one block always passes (`Chain.ShortChainsAreValid`,
  `Chain.FirstBlockUnchecked`). Block indices are never checked (`Chain.IndicesUnchecked`).
- There is no background monitor loop. `auto_sync` runs synchronously from the constructor and after
  each append. It is modelled as a function called at those two points.

## Model

| member | source | states |
|---|---|---|
| Chain.CalculateHash | backend/blockchain.py:23-35 | the digest of a block's current fields, whatever digest it stores: those fields with this digest pass the digest test, and a block passes it iff its stored digest equals this one |
| Chain.Seal | backend/blockchain.py:10-35 | a constructed block stores its fields as given, and its digest is the digest of those fields |
| Chain.SealedIsSeal | backend/blockchain.py:20-35 | a block passes the digest test exactly when it equals the sealing of its own fields |
| Chain.Genesis | backend/blockchain.py:66-75 | the genesis block is sealed, has index 0 and predecessor digest "0", and carries the sentinel payload |
| Chain.Append | backend/blockchain.py:77-91 | appending grows the chain by one and leaves the earlier blocks unchanged; the new block is sealed, its index is the old length and its predecessor digest is the old tail's digest |
| Chain.FirstFault | backend/blockchain.py:123-134 | the loop finds no fault iff every block from the start index passes both tests; a fault names the first failing block, and the digest fault is reported before the link fault |
| Chain.IsChainValid | backend/blockchain.py:123-134 | the local check is true iff every block at index 1 or later recomputes its digest and names its predecessor's digest |
| Chain.ShortChainsAreValid | backend/blockchain.py:124 | a chain of at most one block is always accepted |
| Chain.FirstBlockUnchecked | backend/blockchain.py:124-132 | rewriting every field of block 0 while keeping its stored digest does not change the verdict |
| Chain.IndicesUnchecked | backend/blockchain.py:123-134 | a sealed block with any index at all, linked to the tail, extends an accepted chain to an accepted chain |
| Chain.AppendKeepsValid | backend/blockchain.py:77-91 | appending keeps the verdict: an accepted chain stays accepted and a rejected one stays rejected |
| Chain.ValidChainIsLinked | backend/blockchain.py:127-132 | in an accepted chain, every block after the first recomputes its digest and links to its predecessor |
| Chain.TamperDetected | backend/blockchain.py:127-129 | with an injective digest, rewriting a hashed field of a sealed block at index 1 or later without resealing it makes the check fail |
| Chain.TamperLocated | backend/blockchain.py:124-129 | when all earlier blocks pass, the loop stops at the tampered block with a digest fault |
| BackendBlock.NewBlock | backend/blockchain.py:10-35 | the block's dictionary holds the eight given fields, and its digest is the digest of the fields the peer check reads back |
| BackendBlock.ToDict | backend/blockchain.py:37-48 | the dictionary carries the block's eight hashed fields and its stored digest |
| BackendBlock.FromDict | backend/blockchain.py:106-116 | rebuilding a block keeps the stored digest, and converting it back gives the same dictionary |
| BackendBlock.LoadBlocks | backend/blockchain.py:190-204 | the chain has one block per dictionary, in order, and each block keeps its stored digest |
| BackendBlock.ToDicts | backend/blockchain.py:95-97 | the saved dictionaries, one per block, rebuild into the same blocks |
| BackendBlock.SaveLoadRoundTrip | backend/blockchain.py:95-117 | saving a chain and loading it again gives the same blocks, digests included |
| BackendBlock.ExternalScan | backend/blockchain.py:165-188 | the peer loop returns true iff every dictionary from the start index recomputes its digest from its fields and names its predecessor's digest |
| BackendBlock.IsExternalChainValid | backend/blockchain.py:164-188 | the peer check on dictionaries gives the local check's verdict on the blocks they load into |
| BackendBlock.ExternalAgreesOnDicts | backend/blockchain.py:164-188 | the peer check on a chain's own dictionaries agrees with the local check on the chain |
| BackendLedger.GenesisBlock | backend/blockchain.py:66-75 | the genesis block is sealed with index 0, request id "GENESIS", type and status "N/A", confidence 0.0, image digest "0" and predecessor "0" |
| BackendLedger.SeedChain | backend/blockchain.py:57-62 | with nothing stored, the chain is the genesis block alone; otherwise it is the stored dictionaries, digests kept; it is never empty |
| BackendLedger.FreshChainIsGenesis | backend/blockchain.py:60-75 | a fresh chain has exactly one block, with index 0, predecessor "0" and request id "GENESIS"; it is sealed and accepted |
| BackendLedger.AppendRecord | backend/blockchain.py:77-91 | the chain grows by one block and the earlier blocks are unchanged; the new block holds the record with index = old length and predecessor = old tail digest; the grown chain is accepted iff the old one was |
| BackendLedger.RegisterNode | backend/blockchain.py:119-121 | the address joins the peer set, no other address is added and none is lost, and the chain is untouched |
| BackendLedger.RegisterIdempotent | backend/blockchain.py:119-121 | registering the same address twice equals registering it once |
| BackendLedger.ReplaceChain | backend/blockchain.py:190-206 | after a replacement the chain's dictionaries are exactly the given ones, stored digests included; the peers are untouched |
| BackendLedger.ScanPeers | backend/blockchain.py:141-157 | a chain the peer loop settles on was served by a peer and accepted by the peer check |
| BackendLedger.ScanNormalBound | backend/blockchain.py:141-157 | the normal-mode loop never lowers the length to beat, and ends with a length no accepted chain it saw exceeds |
| BackendLedger.ScanNormalChoice | backend/blockchain.py:141-157 | the normal-mode loop keeps its chain when nothing beats the start length, and otherwise ends holding the first accepted chain of its final length |
| BackendLedger.ScanNormal | backend/blockchain.py:141-157 | the normal-mode loop ends holding the greatest accepted length above the start length, and the first accepted chain of that length |
| BackendLedger.ScanForced | backend/blockchain.py:141-157 | the force-mode loop takes the first accepted chain and stops; with no accepted chain it changes nothing |
| BackendLedger.ResolveConflicts | backend/blockchain.py:136-162 | the peers are untouched; when nothing is replaced the ledger is unchanged; a replacement chain is non-empty and accepted by the local check |
| BackendLedger.NormalResolution | backend/blockchain.py:136-162 | normal mode replaces iff some accepted peer chain is strictly longer than the local one; it adopts the first accepted chain of the greatest length, and no accepted chain is longer than the result |
| BackendLedger.ForcedResolution | backend/blockchain.py:136-162 | force mode adopts the first accepted chain whatever its length, and replaces iff that chain is non-empty; with no accepted chain nothing is replaced |
| BackendLedger.ResolveIdempotent | backend/blockchain.py:136-162 | a second normal resolution on the same peer answers replaces nothing and leaves the ledger as the first left it |
| BackendLedger.ForcedStopsAtEmptyChain | backend/blockchain.py:150-162 | in force mode, an empty first accepted chain ends the scan with nothing replaced, even if a non-empty accepted chain follows |
| BackendLedger.AutoSync | backend/blockchain.py:208-217 | an accepted chain stays accepted and never shrinks; it changes iff some accepted peer chain is strictly longer, then becomes the first accepted chain of the greatest length, and no accepted peer chain is longer than the result; a rejected chain becomes accepted iff the first accepted peer chain is non-empty, and then becomes that chain; any change yields an accepted chain |
| BackendLedger.Open | backend/blockchain.py:52-64 | after start-up the chain is non-empty and the peers are the stored ones; with nothing stored the chain is accepted; an accepted stored chain stays accepted and does not shrink, no accepted peer chain is longer than the result, and if the seeded chain was given up the result is the first accepted peer chain of the greatest length; a rejected stored chain ends accepted iff the first accepted peer chain is non-empty, and then becomes that chain |
| BackendLedger.OpenKeepsStored | backend/blockchain.py:52-64 | when the stored chain is non-empty and accepted and no accepted peer chain is longer, start-up leaves exactly the stored dictionaries, digests included |
| BackendLedger.FreshStart | backend/blockchain.py:52-64 | with nothing stored and no accepted peer chain longer than one block, start-up leaves exactly the genesis block |
| BackendLedger.AddBlockFromData | backend/blockchain.py:77-93 | after append and sync the chain is non-empty and the peers are unchanged; an accepted chain stays accepted and is strictly longer, no accepted peer chain is longer than the result, and if the grown chain was given up the result is the first accepted peer chain of the greatest length; a rejected chain ends accepted iff the first accepted peer chain is non-empty, and then becomes that chain |
| BackendLedger.AddWithoutLongerPeer | backend/blockchain.py:77-93 | when no accepted peer chain beats the grown chain, the result is exactly the old chain plus the new block |
| DemoLedger.NewBlock | blockchain_demo/blockchain/blockchain.py:12-29 | the block stores index, timestamp, image data, numbers and predecessor as given, with the digest over those five |
| DemoLedger.ToDict | blockchain_demo/blockchain/blockchain.py:12-32 | the attribute dictionary carries all six attributes: the five hashed fields (index, timestamp, image data, numbers, predecessor digest) and the stored digest |
| DemoLedger.FromDict | blockchain_demo/blockchain/blockchain.py:75-84 | a loaded block converts back to the exact dictionary it came from |
| DemoLedger.DictRoundTrip | blockchain_demo/blockchain/blockchain.py:31-32 | converting a block to its dictionary and back gives the same block |
| DemoLedger.LoadChain | blockchain_demo/blockchain/blockchain.py:69-84 | loading gives one block per stored entry, in order, and each keeps its stored digest |
| DemoLedger.LoadKeepsForgedDigest | blockchain_demo/blockchain/blockchain.py:76-83 | a stored digest that does not match its fields survives loading, so the loaded block is not sealed |
| DemoLedger.GenesisBlock | blockchain_demo/blockchain/blockchain.py:44-46 | the genesis block is sealed with index 0, image data "GENESIS", numbers [0, 0, 0] and predecessor "0" |
| DemoLedger.Init | blockchain_demo/blockchain/blockchain.py:36-42 | with nothing stored the chain is the genesis block alone, with all links holding; otherwise it is the stored entries, digests kept |
| DemoLedger.AddBlockFromData | blockchain_demo/blockchain/blockchain.py:48-63 | the chain grows by one block and the earlier blocks are unchanged; the new block has index = old length and predecessor = old tail digest; the grown chain has all links holding iff the old one did |
| DemoLedger.Replay | blockchain_demo/blockchain/blockchain.py:52-62 | a run of additions grows the chain by their number and keeps the earlier blocks |
| DemoLedger.ReplayKeepsValid | blockchain_demo/blockchain/blockchain.py:52-62 | a run of additions onto a chain whose links hold leaves every link holding |
| DemoLedger.FreshChainStaysLinked | blockchain_demo/blockchain/blockchain.py:40-62 | from a fresh start, any run of additions leaves every link holding |

## Left out

- File persistence: `save_chain`, the file side of `load_chain`, `save_nodes` and `load_nodes`. A
  stored chain enters as its list of dictionaries; a missing file is an empty list. The stored peer
  set enters as a set. Each save is modelled only by its in-memory effect.
- Network requests in `resolve_conflicts`. Each peer's answer is given as an `Option`, and the
  bare `except` and non-200 responses become `None`. The order in which Python iterates the peer
  set is not modelled; the answers are taken in list order. The request has no timeout, so a peer
  that never answers blocks `resolve_conflicts`, and with it the constructor and
  `add_block_from_data`; the model gives every peer an answer.
- The list of peer answers is not tied to the registered peer set: the caller passes one answer
  per address in `nodes`. With no registered peer the source makes no request and replaces
  nothing, which the model gives only when the list is empty.
- SHA-256 and `json.dumps(sort_keys=True)`: these are foreign library code, so the digest is the
  parameter `h`.
- Float-to-text formatting of timestamps and confidence scores: floats stay opaque bit patterns.
- Dictionaries are well-typed records with all nine keys, so the model cannot represent a peer chain
  whose values have other JSON types or whose blocks lack keys; such an answer can only be given as
  `None`, which the model skips. The source behaves differently on some of these inputs:
  - It hashes whatever JSON values it finds and `replace_chain` stores them as they are. So a peer
    chain with, say, a string `index` and consistent digests is accepted and adopted by the source,
    where the model skips it.
  - A one-block peer chain passes `is_external_chain_valid` whatever block 0 holds, even without a
    `hash` key.
  - A missing key other than `hash` in block 0 passes `is_external_chain_valid`. It then raises in
    `replace_chain`, outside the `try`, after the local chain has been cleared.

  None of these paths is modelled.
- A `record` missing a key raises `KeyError` in `add_block_from_data`. `Record` is a typed value.
- `print` diagnostics, including the outcome messages of `auto_sync`. They are observational only;
  `Chain.FirstFault` still names the failing block and the kind of failure.
- Reading the image file and base64-encoding it in the demo's `add_block_from_data`. The caller
  passes the encoded text. `time.time()` is likewise the parameter `now`.
- The routing, inference, camera, runner and UI files. They only call the ledger.
- Concurrency: the code has no lock and no background thread.

=== FILE: backend_block.dfy ===
/** The backend ledger's blocks (`backend/blockchain.py`, class `Block`): the payload of one plastic
    verification event, the dictionary form in which blocks are persisted and exchanged with peers,
    and the validation of a chain received in that form. */
module BackendBlock {
  import opened Common
  import opened Chain

  /** The verification record a block carries besides its index, timestamp and link. */
  datatype Verification = Verification(requestId: string, plasticType: string, confidence: Float,
                                       imageHash: string, verificationStatus: string)

  /** The digest over the eight hashed fields (SHA-256 of their key-sorted JSON text). */
  type Digest = Header<Verification> -> string

  type LedgerBlock = Block<Verification>

  /** The dictionary form of a block, one field per key, as written to the chain file and served
      to peers; `hash` is carried alongside the eight hashed fields. */
  datatype BlockData = BlockData(index: int, timestamp: Float, requestId: string, plasticType: string,
                                 confidence: Float, imageHash: string, verificationStatus: string,
                                 previousHash: string, hash: string)

  /** The sentinel payload of the genesis block. */
  const GenesisPayload: Verification := Verification("GENESIS", "N/A", Zero, "0", "N/A")

  /** `Block(...)`: a block built from its eight fields, sealed with their digest. */
  function NewBlock(h: Digest, index: int, timestamp: Float, requestId: string, plasticType: string,
                    confidence: Float, imageHash: string, verificationStatus: string,
                    previousHash: string): (b: LedgerBlock)
    ensures b.hash == h(HeaderOf(ToDict(b)))
    ensures ToDict(b) == BlockData(index, timestamp, requestId, plasticType, confidence, imageHash,
                                   verificationStatus, previousHash, b.hash)
  {
    Seal(h, index, timestamp,
         Verification(requestId, plasticType, confidence, imageHash, verificationStatus), previousHash)
  }

  /** The eight hashed fields read back out of a dictionary, as the peer check does before hashing. */
  function HeaderOf(d: BlockData): Header<Verification>
  {
    Header(d.index, d.timestamp,
           Verification(d.requestId, d.plasticType, d.confidence, d.imageHash, d.verificationStatus),
           d.previousHash)
  }

  /** `to_dict`: all nine fields, the stored digest included. */
  function ToDict(b: LedgerBlock): (d: BlockData)
    ensures HeaderOf(d) == b.header && d.hash == b.hash
  {
    BlockData(b.header.index, b.header.timestamp, b.header.payload.requestId, b.header.payload.plasticType,
              b.header.payload.confidence, b.header.payload.imageHash, b.header.payload.verificationStatus,
              b.header.previousHash, b.hash)
  }

  /** Rebuilding a block from its dictionary when a chain is loaded or replaced: the block is
      constructed and its digest then overwritten by the stored one, so the digest is never
      recomputed. */
  function FromDict(d: BlockData): (b: LedgerBlock)
    ensures b.hash == d.hash
    ensures ToDict(b) == d
  {
    Block(HeaderOf(d), d.hash)
  }

  /** The loop shared by `load_chain` and `replace_chain`: each dictionary becomes one block, in
      order, keeping the digest it was stored with. */
  function LoadBlocks(data: seq<BlockData>): (chain: seq<LedgerBlock>)
    ensures |chain| == |data|
    ensures forall i :: 0 <= i < |data| ==> chain[i].hash == data[i].hash && ToDict(chain[i]) == data[i]
  {
    seq(|data|, i requires 0 <= i < |data| => FromDict(data[i]))
  }

  /** The dictionaries of a chain, in order: what `save_chain` writes and the chain endpoint serves. */
  function ToDicts(chain: seq<LedgerBlock>): (data: seq<BlockData>)
    ensures |data| == |chain|
    ensures forall i :: 0 <= i < |chain| ==> FromDict(data[i]) == chain[i]
  {
    seq(|chain|, i requires 0 <= i < |chain| => ToDict(chain[i]))
  }

  /** Saving then loading a chain gives back the same blocks, digests included. */
  lemma SaveLoadRoundTrip(chain: seq<LedgerBlock>)
    ensures LoadBlocks(ToDicts(chain)) == chain
  {
  }

  /** The two tests the peer check runs on dictionary `i`. */
  predicate DictLinkOk(h: Digest, data: seq<BlockData>, i: int)
    requires 1 <= i < |data|
  {
    data[i].hash == h(HeaderOf(data[i])) && data[i].previousHash == data[i - 1].hash
  }

  /** The loop of `is_external_chain_valid` from dictionary `i` on, stopping at the first failure. */
  function ExternalScan(h: Digest, data: seq<BlockData>, i: nat): (ok: bool)
    requires 1 <= i
    ensures ok <==> forall j :: i <= j < |data| ==> DictLinkOk(h, data, j)
    decreases |data| - i
  {
    if i >= |data| then true
    else if data[i].hash != h(HeaderOf(data[i])) then
      assert !DictLinkOk(h, data, i);
      false
    else if data[i].previousHash != data[i - 1].hash then
      assert !DictLinkOk(h, data, i);
      false
    else ExternalScan(h, data, i + 1)
  }

  /** `is_external_chain_valid`: the peer check on dictionaries gives the verdict the local check
      gives on the blocks those dictionaries load into. */
  function IsExternalChainValid(h: Digest, data: seq<BlockData>): (ok: bool)
    ensures ok <==> IsChainValid(h, LoadBlocks(data))
  {
    var chain := LoadBlocks(data);
    assert forall j :: 1 <= j < |data| ==> (DictLinkOk(h, data, j) <==> LinkOk(h, chain, j));
    ExternalScan(h, data, 1)
  }

  /** The peer check applied to a chain's own dictionaries agrees with the local check. */
  lemma ExternalAgreesOnDicts(h: Digest, chain: seq<LedgerBlock>)
    ensures IsExternalChainValid(h, ToDicts(chain)) == IsChainValid(h, chain)
  {
    SaveLoadRoundTrip(chain);
  }
}

=== FILE: backend_ledger.dfy ===
/** The backend ledger (`backend/blockchain.py`, class `Blockchain`): seeding on start, appending
    verification records, the peer registry, and pull-based conflict resolution with the peers.
    File reads and writes are left out; a chain file enters as the dictionaries it holds (an
    absent file holds none), and each save is only its in-memory effect. The peers' chains enter
    as the list of fetch results, in the order the peer set is iterated: `None` is a request that
    raised or answered with a status other than 200. */
module BackendLedger {
  import opened Common
  import opened Chain
  import opened BackendBlock

  /** The state of one ledger instance: its chain and the addresses of its known peers. */
  datatype Ledger = Ledger(chain: seq<LedgerBlock>, nodes: set<string>)

  /** The record handed to `add_block_from_data` by the classification endpoint. */
  datatype Record = Record(timestamp: Float, requestId: string, plasticType: string, confidence: Float,
                           imageHash: string, verificationStatus: string)

  /** What one peer's chain request produced. */
  type Fetch = Option<seq<BlockData>>

  /** `create_genesis_block`: the sealed sentinel block, timestamped with the current time. */
  function GenesisBlock(h: Digest, now: Float): (g: LedgerBlock)
    ensures Sealed(h, g)
    ensures ToDict(g) == BlockData(0, now, "GENESIS", "N/A", Zero, "0", "N/A", GenesisPreviousHash, g.hash)
  {
    Genesis(h, now, GenesisPayload)
  }

  /** The start-up part of the constructor before synchronising: load the stored chain, and seed
      it with a genesis block when nothing was loaded. */
  function SeedChain(h: Digest, stored: seq<BlockData>, now: Float): (chain: seq<LedgerBlock>)
    ensures |chain| > 0
    ensures |stored| == 0 ==> chain == [GenesisBlock(h, now)]
    ensures |stored| > 0 ==> ToDicts(chain) == stored
  {
    if |stored| == 0 then [GenesisBlock(h, now)]
    else
      var chain := LoadBlocks(stored);
      assert ToDicts(chain) == stored;
      chain
  }

  /** A fresh ledger holds exactly one block, the genesis block, and the local check accepts it. */
  lemma FreshChainIsGenesis(h: Digest, now: Float)
    ensures var chain := SeedChain(h, [], now);
            && |chain| == 1 && chain[0].header.index == 0
            && chain[0].header.previousHash == GenesisPreviousHash && chain[0].header.payload.requestId == "GENESIS"
            && Sealed(h, chain[0]) && IsChainValid(h, chain)
  {
    ShortChainsAreValid(h, SeedChain(h, [], now));
  }

  /** The append step of `add_block_from_data`: a new block for the record after the tail. */
  function AppendRecord(h: Digest, chain: seq<LedgerBlock>, record: Record): (r: seq<LedgerBlock>)
    requires |chain| > 0
    ensures |r| == |chain| + 1 && r[..|chain|] == chain
    ensures Sealed(h, r[|chain|])
    ensures ToDict(r[|chain|]) == BlockData(|chain|, record.timestamp, record.requestId, record.plasticType,
                                            record.confidence, record.imageHash, record.verificationStatus,
                                            chain[|chain| - 1].hash, r[|chain|].hash)
    ensures IsChainValid(h, r) <==> IsChainValid(h, chain)
  {
    var payload := Verification(record.requestId, record.plasticType, record.confidence,
                                record.imageHash, record.verificationStatus);
    AppendKeepsValid(h, chain, record.timestamp, payload);
    Append(h, chain, record.timestamp, payload)
  }

  /** `register_node`: the address joins the peer set; nothing else changes. */
  function RegisterNode(ledger: Ledger, address: string): (r: Ledger)
    ensures r.chain == ledger.chain
    ensures address in r.nodes && ledger.nodes <= r.nodes
    ensures forall a :: a in r.nodes ==> a in ledger.nodes || a == address
  {
    ledger.(nodes := ledger.nodes + {address})
  }

  /** Registering an address a second time changes nothing. */
  lemma RegisterIdempotent(ledger: Ledger, address: string)
    ensures RegisterNode(RegisterNode(ledger, address), address) == RegisterNode(ledger, address)
  {
  }

  /** `replace_chain`: the local chain becomes the blocks of the given dictionaries, every stored
      digest kept as given. */
  function ReplaceChain(ledger: Ledger, data: seq<BlockData>): (r: Ledger)
    ensures r.nodes == ledger.nodes
    ensures ToDicts(r.chain) == data
  {
    var chain := LoadBlocks(data);
    assert ToDicts(chain) == data;
    ledger.(chain := chain)
  }

  /** A fetch result that is a chain the peer check accepts. */
  predicate ValidFetch(h: Digest, f: Fetch)
  {
    f.Some? && IsExternalChainValid(h, f.value)
  }

  /** Fetch `j` is the first accepted one from position `k` on. */
  predicate FirstValid(h: Digest, fetches: seq<Fetch>, k: int, j: int)
  {
    && 0 <= k <= j < |fetches| && ValidFetch(h, fetches[j])
    && forall i :: k <= i < j ==> !ValidFetch(h, fetches[i])
  }

  /** Fetch `j` is an accepted chain of length `len`, and every accepted chain before it, from
      position `k` on, is strictly shorter. */
  predicate FirstOfLength(h: Digest, fetches: seq<Fetch>, k: int, j: int, len: int)
  {
    && 0 <= k <= j < |fetches| && ValidFetch(h, fetches[j]) && |fetches[j].value| == len
    && forall i :: k <= i < j && ValidFetch(h, fetches[i]) ==> |fetches[i].value| < len
  }

  /** The variables of the peer loop: the length to beat and the chosen chain, if any. */
  datatype Scan = Scan(maxLength: nat, newChain: Option<seq<BlockData>>)

  /** The peer loop of `resolve_conflicts` from fetch `k` on. A failed fetch or a rejected chain
      is skipped. In force mode the first accepted chain is taken and the loop stops; otherwise
      an accepted chain is taken when it is strictly longer than the longest so far. Whatever the
      mode, a chain the loop settles on is one a peer served and the peer check accepted. */
  function ScanPeers(h: Digest, fetches: seq<Fetch>, force: bool, k: nat, acc: Scan): (r: Scan)
    requires k <= |fetches|
    ensures r.newChain == acc.newChain ||
            exists j :: k <= j < |fetches| && ValidFetch(h, fetches[j]) && r.newChain == Some(fetches[j].value)
    decreases |fetches| - k
  {
    if k == |fetches| then acc
    else match fetches[k]
      case None => ScanPeers(h, fetches, force, k + 1, acc)
      case Some(data) =>
        if !IsExternalChainValid(h, data) then ScanPeers(h, fetches, force, k + 1, acc)
        else if force then acc.(newChain := Some(data))
        else if |data| > acc.maxLength then ScanPeers(h, fetches, force, k + 1, Scan(|data|, Some(data)))
        else ScanPeers(h, fetches, force, k + 1, acc)
  }

  /** One step of the normal-mode loop: an accepted chain longer than the best so far is taken,
      anything else is passed over. */
  lemma NormalStep(h: Digest, fetches: seq<Fetch>, k: nat, acc: Scan)
    requires k < |fetches|
    ensures ScanPeers(h, fetches, false, k, acc) ==
            if ValidFetch(h, fetches[k]) && |fetches[k].value| > acc.maxLength
            then ScanPeers(h, fetches, false, k + 1, Scan(|fetches[k].value|, fetches[k]))
            else ScanPeers(h, fetches, false, k + 1, acc)
  {
  }

  /** The normal-mode loop ends holding a length no accepted chain from `k` on exceeds. */
  lemma {:induction false} ScanNormalBound(h: Digest, fetches: seq<Fetch>, k: nat, acc: Scan)
    requires k <= |fetches|
    ensures var r := ScanPeers(h, fetches, false, k, acc);
            && r.maxLength >= acc.maxLength
            && (forall j :: k <= j < |fetches| && ValidFetch(h, fetches[j]) ==> |fetches[j].value| <= r.maxLength)
    decreases |fetches| - k
  {
    if k < |fetches| {
      var r := ScanPeers(h, fetches, false, k, acc);
      NormalStep(h, fetches, k, acc);
      if ValidFetch(h, fetches[k]) && |fetches[k].value| > acc.maxLength {
        var next := Scan(|fetches[k].value|, fetches[k]);
        ScanNormalBound(h, fetches, k + 1, next);
        assert r == ScanPeers(h, fetches, false, k + 1, next);
      } else {
        ScanNormalBound(h, fetches, k + 1, acc);
        assert r == ScanPeers(h, fetches, false, k + 1, acc);
      }
    }
  }

  /** The normal-mode loop keeps its chain when nothing beats the start length, and otherwise ends
      holding the first accepted chain of the length it ends with. */
  lemma {:induction false} ScanNormalChoice(h: Digest, fetches: seq<Fetch>, k: nat, acc: Scan)
    requires k <= |fetches|
    requires acc.newChain.Some? ==> |acc.newChain.value| == acc.maxLength
    ensures var r := ScanPeers(h, fetches, false, k, acc);
            && (r.maxLength == acc.maxLength ==> r.newChain == acc.newChain)
            && (r.maxLength > acc.maxLength ==>
                  exists j :: FirstOfLength(h, fetches, k, j, r.maxLength) && r.newChain == Some(fetches[j].value))
    decreases |fetches| - k
  {
    if k < |fetches| {
      var r := ScanPeers(h, fetches, false, k, acc);
      NormalStep(h, fetches, k, acc);
      if ValidFetch(h, fetches[k]) && |fetches[k].value| > acc.maxLength {
        var next := Scan(|fetches[k].value|, fetches[k]);
        ScanNormalBound(h, fetches, k + 1, next);
        ScanNormalChoice(h, fetches, k + 1, next);
        if r.maxLength == next.maxLength {
          assert FirstOfLength(h, fetches, k, k, r.maxLength);
        } else {
          var j :| FirstOfLength(h, fetches, k + 1, j, r.maxLength) && r.newChain == Some(fetches[j].value);
          assert FirstOfLength(h, fetches, k, j, r.maxLength);
        }
      } else {
        ScanNormalChoice(h, fetches, k + 1, acc);
        if r.maxLength > acc.maxLength {
          var j :| FirstOfLength(h, fetches, k + 1, j, r.maxLength) && r.newChain == Some(fetches[j].value);
          assert FirstOfLength(h, fetches, k, j, r.maxLength);
        }
      }
    }
  }

  /** The normal-mode loop keeps the longest accepted chain seen, the first one of that length. */
  lemma ScanNormal(h: Digest, fetches: seq<Fetch>, k: nat, acc: Scan)
    requires k <= |fetches|
    requires acc.newChain.Some? ==> |acc.newChain.value| == acc.maxLength
    ensures var r := ScanPeers(h, fetches, false, k, acc);
            && r.maxLength >= acc.maxLength
            && (forall j :: k <= j < |fetches| && ValidFetch(h, fetches[j]) ==> |fetches[j].value| <= r.maxLength)
            && (r.maxLength == acc.maxLength ==> r.newChain == acc.newChain)
            && (r.maxLength > acc.maxLength ==>
                  exists j :: FirstOfLength(h, fetches, k, j, r.maxLength) && r.newChain == Some(fetches[j].value))
  {
    ScanNormalBound(h, fetches, k, acc);
    ScanNormalChoice(h, fetches, k, acc);
  }

  /** The force-mode loop stops at the first accepted chain and takes it; with none it changes nothing. */
  lemma {:induction false} ScanForced(h: Digest, fetches: seq<Fetch>, k: nat, acc: Scan)
    requires k <= |fetches|
    ensures var r := ScanPeers(h, fetches, true, k, acc);
            && ((forall j :: k <= j < |fetches| ==> !ValidFetch(h, fetches[j])) ==> r == acc)
            && (forall j :: FirstValid(h, fetches, k, j) ==> r.newChain == Some(fetches[j].value))
            && (r != acc ==> exists j :: FirstValid(h, fetches, k, j) && r.newChain == Some(fetches[j].value))
    decreases |fetches| - k
  {
    if k < |fetches| {
      var r := ScanPeers(h, fetches, true, k, acc);
      if ValidFetch(h, fetches[k]) {
        assert FirstValid(h, fetches, k, k);
      } else {
        ScanForced(h, fetches, k + 1, acc);
        assert r == ScanPeers(h, fetches, true, k + 1, acc);
        forall j | FirstValid(h, fetches, k, j)
          ensures FirstValid(h, fetches, k + 1, j)
        {
        }
        if r != acc {
          var j :| FirstValid(h, fetches, k + 1, j) && r.newChain == Some(fetches[j].value);
          assert FirstValid(h, fetches, k, j);
        }
      }
    }
  }

  /** The outcome of a resolution: whether the chain was replaced, and the ledger afterwards. */
  datatype Resolution = Resolution(replaced: bool, ledger: Ledger)

  /** `resolve_conflicts`: the chain the peer loop settled on replaces the local chain when there
      is one and it is non-empty. A replacement is always an accepted peer chain. */
  function ResolveConflicts(h: Digest, ledger: Ledger, fetches: seq<Fetch>, force: bool): (res: Resolution)
    ensures res.ledger.nodes == ledger.nodes
    ensures !res.replaced ==> res.ledger == ledger
    ensures res.replaced ==> |res.ledger.chain| > 0 && IsChainValid(h, res.ledger.chain)
  {
    var scan := ScanPeers(h, fetches, force, 0, Scan(|ledger.chain|, None));
    match scan.newChain
    case Some(data) =>
      if |data| > 0 then Resolution(true, ReplaceChain(ledger, data)) else Resolution(false, ledger)
    case None => Resolution(false, ledger)
  }

  /** Normal mode replaces the chain exactly when some peer served an accepted chain strictly
      longer than the local one; it then adopts the first accepted chain of the greatest length,
      and no accepted chain is longer than the chain it leaves. */
  lemma {:induction false} NormalResolution(h: Digest, ledger: Ledger, fetches: seq<Fetch>)
    ensures var res := ResolveConflicts(h, ledger, fetches, false);
            && (res.replaced <==> exists j :: 0 <= j < |fetches| && ValidFetch(h, fetches[j])
                                                && |fetches[j].value| > |ledger.chain|)
            && (res.replaced ==> exists j :: FirstOfLength(h, fetches, 0, j, |res.ledger.chain|)
                                             && ToDicts(res.ledger.chain) == fetches[j].value)
            && (forall j :: 0 <= j < |fetches| && ValidFetch(h, fetches[j]) ==>
                              |fetches[j].value| <= |res.ledger.chain|)
  {
    var res := ResolveConflicts(h, ledger, fetches, false);
    var scan := ScanPeers(h, fetches, false, 0, Scan(|ledger.chain|, None));
    ScanNormal(h, fetches, 0, Scan(|ledger.chain|, None));
    if scan.maxLength > |ledger.chain| {
      var j :| FirstOfLength(h, fetches, 0, j, scan.maxLength) && scan.newChain == Some(fetches[j].value);
      assert res.replaced && ToDicts(res.ledger.chain) == fetches[j].value;
    }
  }

  /** Force mode adopts the first accepted chain whatever its length, except that an empty one ends
      the scan without replacing anything; with no accepted chain nothing is replaced. */
  lemma {:induction false} ForcedResolution(h: Digest, ledger: Ledger, fetches: seq<Fetch>)
    ensures var res := ResolveConflicts(h, ledger, fetches, true);
            && ((forall j :: 0 <= j < |fetches| ==> !ValidFetch(h, fetches[j])) ==> !res.replaced)
            && (res.replaced ==> exists j :: FirstValid(h, fetches, 0, j) && |fetches[j].value| > 0)
            && forall j :: FirstValid(h, fetches, 0, j) ==>
                             && (res.replaced <==> |fetches[j].value| > 0)
                             && (res.replaced ==> ToDicts(res.ledger.chain) == fetches[j].value)
  {
    ScanForced(h, fetches, 0, Scan(|ledger.chain|, None));
  }

  /** A normal resolution run again on the same peer answers replaces nothing the second time. */
  lemma {:induction false} ResolveIdempotent(h: Digest, ledger: Ledger, fetches: seq<Fetch>)
    ensures var first := ResolveConflicts(h, ledger, fetches, false);
            var second := ResolveConflicts(h, first.ledger, fetches, false);
            !second.replaced && second.ledger == first.ledger
  {
    var first := ResolveConflicts(h, ledger, fetches, false);
    NormalResolution(h, ledger, fetches);
    NormalResolution(h, first.ledger, fetches);
  }

  /** In force mode an empty accepted chain ends the scan: nothing is replaced, even when an
      accepted non-empty chain comes later. */
  lemma ForcedStopsAtEmptyChain(h: Digest, ledger: Ledger, fetches: seq<Fetch>, j: nat)
    requires FirstValid(h, fetches, 0, j) && |fetches[j].value| == 0
    ensures ResolveConflicts(h, ledger, fetches, true) == Resolution(false, ledger)
  {
    ForcedResolution(h, ledger, fetches);
  }

  /** `auto_sync`: a chain the local check rejects is recovered by a forced resolution, a chain it
      accepts is reconciled by a normal one. An accepted chain stays accepted and never shrinks; it
      changes exactly when a peer served a strictly longer accepted chain, and then becomes the first
      accepted chain of the greatest length. A rejected chain becomes accepted exactly when the first
      accepted peer chain is non-empty, and then becomes that chain. */
  function AutoSync(h: Digest, ledger: Ledger, fetches: seq<Fetch>): (r: Ledger)
    ensures r.nodes == ledger.nodes
    ensures |ledger.chain| > 0 ==> |r.chain| > 0
    ensures r != ledger ==> IsChainValid(h, r.chain)
    ensures IsChainValid(h, ledger.chain) ==> IsChainValid(h, r.chain) && |r.chain| >= |ledger.chain|
    ensures IsChainValid(h, ledger.chain) ==>
              && (r != ledger <==> exists j :: 0 <= j < |fetches| && ValidFetch(h, fetches[j])
                                                && |fetches[j].value| > |ledger.chain|)
              && (forall j :: 0 <= j < |fetches| && ValidFetch(h, fetches[j]) ==> |fetches[j].value| <= |r.chain|)
              && (r != ledger ==> exists j :: FirstOfLength(h, fetches, 0, j, |r.chain|)
                                                && ToDicts(r.chain) == fetches[j].value)
    ensures !IsChainValid(h, ledger.chain) ==>
              (IsChainValid(h, r.chain) <==> exists j :: FirstValid(h, fetches, 0, j) && |fetches[j].value| > 0)
    ensures !IsChainValid(h, ledger.chain) ==>
              forall j :: FirstValid(h, fetches, 0, j) && |fetches[j].value| > 0 ==> ToDicts(r.chain) == fetches[j].value
  {
    if !IsChainValid(h, ledger.chain) then
      ForcedResolution(h, ledger, fetches);
      ResolveConflicts(h, ledger, fetches, true).ledger
    else
      NormalResolution(h, ledger, fetches);
      ResolveConflicts(h, ledger, fetches, false).ledger
  }

  /** `Blockchain.__init__`: load the stored chain and peers, seed a genesis block if nothing was
      stored, then synchronise with the peers. An accepted stored chain is beaten by no accepted
      peer chain afterwards, and is replaced only by the first accepted peer chain of the greatest
      length; a rejected stored chain gives way to the first accepted peer chain when that is
      non-empty. */
  function Open(h: Digest, stored: seq<BlockData>, storedNodes: set<string>, now: Float,
                fetches: seq<Fetch>): (r: Ledger)
    ensures r.nodes == storedNodes
    ensures |r.chain| > 0
    ensures |stored| == 0 ==> IsChainValid(h, r.chain)
    ensures IsExternalChainValid(h, stored) ==> IsChainValid(h, r.chain) && |r.chain| >= |stored|
    ensures IsExternalChainValid(h, stored) ==>
              && (forall j :: 0 <= j < |fetches| && ValidFetch(h, fetches[j]) ==> |fetches[j].value| <= |r.chain|)
              && (r.chain != SeedChain(h, stored, now) ==>
                    exists j :: FirstOfLength(h, fetches, 0, j, |r.chain|) && ToDicts(r.chain) == fetches[j].value)
    ensures !IsExternalChainValid(h, stored) ==>
              (IsChainValid(h, r.chain) <==> exists j :: FirstValid(h, fetches, 0, j) && |fetches[j].value| > 0)
    ensures !IsExternalChainValid(h, stored) ==>
              forall j :: FirstValid(h, fetches, 0, j) && |fetches[j].value| > 0 ==> ToDicts(r.chain) == fetches[j].value
  {
    var seeded := Ledger(SeedChain(h, stored, now), storedNodes);
    ShortChainsAreValid(h, [GenesisBlock(h, now)]);
    SaveLoadRoundTrip(seeded.chain);
    AutoSync(h, seeded, fetches)
  }

  /** An accepted stored chain that no peer beats is exactly the chain start-up leaves, every
      stored digest kept. */
  lemma OpenKeepsStored(h: Digest, stored: seq<BlockData>, storedNodes: set<string>, now: Float,
                        fetches: seq<Fetch>)
    requires |stored| > 0 && IsExternalChainValid(h, stored)
    requires forall j :: 0 <= j < |fetches| && ValidFetch(h, fetches[j]) ==> |fetches[j].value| <= |stored|
    ensures ToDicts(Open(h, stored, storedNodes, now, fetches).chain) == stored
  {
    NormalResolution(h, Ledger(SeedChain(h, stored, now), storedNodes), fetches);
  }

  /** With no stored chain and no peer serving an accepted chain longer than one block, start-up
      leaves exactly the genesis block. */
  lemma FreshStart(h: Digest, storedNodes: set<string>, now: Float, fetches: seq<Fetch>)
    requires forall j :: 0 <= j < |fetches| && ValidFetch(h, fetches[j]) ==> |fetches[j].value| <= 1
    ensures Open(h, [], storedNodes, now, fetches) == Ledger([GenesisBlock(h, now)], storedNodes)
  {
    ShortChainsAreValid(h, [GenesisBlock(h, now)]);
    NormalResolution(h, Ledger([GenesisBlock(h, now)], storedNodes), fetches);
  }

  /** `add_block_from_data`: append a block for the record, then synchronise. The ledger keeps at
      least one block, and a chain the local check accepted is still accepted and has grown; no
      accepted peer chain is longer than the result, and a grown chain is given up only for the
      first accepted peer chain of the greatest length. A rejected chain stays rejected by the
      append and gives way to the first accepted peer chain when that is non-empty. */
  function AddBlockFromData(h: Digest, ledger: Ledger, record: Record, fetches: seq<Fetch>): (r: Ledger)
    requires |ledger.chain| > 0
    ensures r.nodes == ledger.nodes
    ensures |r.chain| > 0
    ensures IsChainValid(h, ledger.chain) ==> IsChainValid(h, r.chain) && |r.chain| > |ledger.chain|
    ensures IsChainValid(h, ledger.chain) ==>
              && (forall j :: 0 <= j < |fetches| && ValidFetch(h, fetches[j]) ==> |fetches[j].value| <= |r.chain|)
              && (r.chain != AppendRecord(h, ledger.chain, record) ==>
                    exists j :: FirstOfLength(h, fetches, 0, j, |r.chain|) && ToDicts(r.chain) == fetches[j].value)
    ensures !IsChainValid(h, ledger.chain) ==>
              (IsChainValid(h, r.chain) <==> exists j :: FirstValid(h, fetches, 0, j) && |fetches[j].value| > 0)
    ensures !IsChainValid(h, ledger.chain) ==>
              forall j :: FirstValid(h, fetches, 0, j) && |fetches[j].value| > 0 ==> ToDicts(r.chain) == fetches[j].value
  {
    AutoSync(h, ledger.(chain := AppendRecord(h, ledger.chain, record)), fetches)
  }

  /** When no peer serves an accepted chain longer than the grown one, appending to an accepted
      chain leaves exactly the old chain plus the new block. */
  lemma AddWithoutLongerPeer(h: Digest, ledger: Ledger, record: Record, fetches: seq<Fetch>)
    requires |ledger.chain| > 0 && IsChainValid(h, ledger.chain)
    requires forall j :: 0 <= j < |fetches| && ValidFetch(h, fetches[j]) ==> |fetches[j].value| <= |ledger.chain| + 1
    ensures AddBlockFromData(h, ledger, record, fetches).chain == AppendRecord(h, ledger.chain, record)
  {
    NormalResolution(h, ledger.(chain := AppendRecord(h, ledger.chain, record)), fetches);
  }
}

=== FILE: chain.dfy ===
/** The hash-linked block list shared by both ledgers of the repository. A block binds an index,
    a timestamp, a payload and its predecessor's digest; its own digest is computed over those
    four parts when it is sealed. The digest function (a SHA-256 over a key-sorted JSON text in
    the source) is a parameter `h`, so every statement here holds for any such function, and
    the two tamper lemmas, the only statements that need collision freedom, say so with
    `Injective(h)`. */
module Chain {
  import opened Common

  /** Every field of a block except its digest: exactly what the digest is computed over. */
  datatype Header<P> = Header(index: int, timestamp: Float, payload: P, previousHash: string)

  /** A block as stored: its fields and the digest kept with them. */
  datatype Block<P> = Block(header: Header<P>, hash: string)

  /** The digest of the genesis block's (absent) predecessor. */
  const GenesisPreviousHash: string := "0"

  /** The stored digest is the digest of the block's own fields. */
  predicate Sealed<P>(h: Header<P> -> string, b: Block<P>)
  {
    b.hash == h(b.header)
  }

  /** `calculate_hash`: the digest a block's fields hash to now, whatever digest it stores. The
      block's fields with this digest pass the digest test, and no other digest does. */
  function CalculateHash<P>(h: Header<P> -> string, b: Block<P>): (d: string)
    ensures Sealed(h, Block(b.header, d))
    ensures Sealed(h, b) <==> b.hash == d
  {
    h(b.header)
  }

  /** No two different headers share a digest. */
  ghost predicate Injective<P(!new)>(h: Header<P> -> string)
  {
    forall a, b :: h(a) == h(b) ==> a == b
  }

  /** Constructing a block: the fields are stored as given and the digest is computed over them. */
  function Seal<P>(h: Header<P> -> string, index: int, timestamp: Float, payload: P,
                   previousHash: string): (b: Block<P>)
    ensures Sealed(h, b)
    ensures b.header.index == index && b.header.timestamp == timestamp
    ensures b.header.payload == payload && b.header.previousHash == previousHash
  {
    Block(Header(index, timestamp, payload, previousHash), h(Header(index, timestamp, payload, previousHash)))
  }

  /** Sealing is the only way to obtain a block that passes the digest check. */
  lemma SealedIsSeal<P>(h: Header<P> -> string, b: Block<P>)
    ensures Sealed(h, b) <==>
            b == Seal(h, b.header.index, b.header.timestamp, b.header.payload, b.header.previousHash)
  {
  }

  /** The genesis block: index 0, predecessor digest "0", the ledger's sentinel payload. */
  function Genesis<P>(h: Header<P> -> string, now: Float, sentinel: P): (g: Block<P>)
    ensures Sealed(h, g)
    ensures g.header.index == 0 && g.header.previousHash == GenesisPreviousHash
    ensures g.header.payload == sentinel && g.header.timestamp == now
  {
    Seal(h, 0, now, sentinel, GenesisPreviousHash)
  }

  /** Appending a record: the new block takes the current length as its index and the tail's
      digest as its predecessor digest. The source reads `chain[-1]`, so an empty chain fails
      there; every ledger holds at least its genesis block. */
  function Append<P>(h: Header<P> -> string, chain: seq<Block<P>>, timestamp: Float, payload: P)
    : (r: seq<Block<P>>)
    requires |chain| > 0
    ensures |r| == |chain| + 1
    ensures r[..|chain|] == chain
    ensures Sealed(h, r[|chain|])
    ensures r[|chain|].header.index == |chain|
    ensures r[|chain|].header.previousHash == chain[|chain| - 1].hash
    ensures r[|chain|].header.timestamp == timestamp && r[|chain|].header.payload == payload
  {
    chain + [Seal(h, |chain|, timestamp, payload, chain[|chain| - 1].hash)]
  }

  /** The two tests run on block `i`: its digest recomputes, and it names its predecessor's digest. */
  predicate LinkOk<P>(h: Header<P> -> string, chain: seq<Block<P>>, i: int)
    requires 1 <= i < |chain|
  {
    Sealed(h, chain[i]) && chain[i].header.previousHash == chain[i - 1].hash
  }

  /** A valid chain: every block after the first passes both tests. The first block's digest and
      every block's index are never looked at. */
  ghost predicate ValidChain<P>(h: Header<P> -> string, chain: seq<Block<P>>)
  {
    forall i :: 1 <= i < |chain| ==> LinkOk(h, chain, i)
  }

  /** Why a scan stopped: a digest that does not recompute, or a broken predecessor link. */
  datatype Fault = InvalidHash(at: nat) | BrokenChain(at: nat)

  /** The validation loop from block `i` on, stopping at the first failing block; the digest test
      comes before the link test, as in the source. */
  function FirstFault<P>(h: Header<P> -> string, chain: seq<Block<P>>, i: nat): (r: Option<Fault>)
    requires 1 <= i
    ensures r.None? <==> forall j :: i <= j < |chain| ==> LinkOk(h, chain, j)
    ensures r.Some? ==> i <= r.value.at < |chain|
    ensures r.Some? ==> forall j :: i <= j < r.value.at ==> LinkOk(h, chain, j)
    ensures r.Some? && r.value.InvalidHash? ==> !Sealed(h, chain[r.value.at])
    ensures r.Some? && r.value.BrokenChain? ==>
              Sealed(h, chain[r.value.at]) && chain[r.value.at].header.previousHash != chain[r.value.at - 1].hash
    decreases |chain| - i
  {
    if i >= |chain| then None
    else if chain[i].hash != CalculateHash(h, chain[i]) then
      assert !LinkOk(h, chain, i);
      Some(InvalidHash(i))
    else if chain[i].header.previousHash != chain[i - 1].hash then
      assert !LinkOk(h, chain, i);
      Some(BrokenChain(i))
    else FirstFault(h, chain, i + 1)
  }

  /** The local validity check: true exactly for valid chains. */
  function IsChainValid<P>(h: Header<P> -> string, chain: seq<Block<P>>): (ok: bool)
    ensures ok <==> ValidChain(h, chain)
  {
    FirstFault(h, chain, 1).None?
  }

  /** A chain of at most one block is always valid: the genesis block is never checked. */
  lemma ShortChainsAreValid<P>(h: Header<P> -> string, chain: seq<Block<P>>)
    requires |chain| <= 1
    ensures IsChainValid(h, chain)
  {
  }

  /** Replacing the first block by anything at all leaves the verdict unchanged, since only block 1's
      link reads the first block, and it reads nothing but its stored digest. */
  lemma {:induction false} FirstBlockUnchecked<P>(h: Header<P> -> string, chain: seq<Block<P>>, header: Header<P>)
    requires |chain| > 0
    ensures IsChainValid(h, chain[0 := Block(header, chain[0].hash)]) == IsChainValid(h, chain)
  {
    var forged := chain[0 := Block(header, chain[0].hash)];
    forall i | 1 <= i < |chain|
      ensures LinkOk(h, forged, i) == LinkOk(h, chain, i)
    {
      assert forged[i] == chain[i] && forged[i - 1].hash == chain[i - 1].hash;
    }
  }

  /** Indices are never checked: a block sealed with any index whatever, linked to its predecessor,
      extends a valid chain to a valid chain. */
  lemma {:induction false} IndicesUnchecked<P>(h: Header<P> -> string, chain: seq<Block<P>>, index: int,
                                               timestamp: Float, payload: P)
    requires |chain| > 0 && IsChainValid(h, chain)
    ensures IsChainValid(h, chain + [Seal(h, index, timestamp, payload, chain[|chain| - 1].hash)])
  {
    var r := chain + [Seal(h, index, timestamp, payload, chain[|chain| - 1].hash)];
    forall i | 1 <= i < |r|
      ensures LinkOk(h, r, i)
    {
      if i < |chain| {
        assert LinkOk(h, chain, i);
        assert r[i] == chain[i] && r[i - 1] == chain[i - 1];
      }
    }
  }

  /** Appending keeps the verdict: an accepted chain stays accepted, and a rejected one stays
      rejected, since the blocks that failed are still in place with their predecessors. */
  lemma AppendKeepsValid<P>(h: Header<P> -> string, chain: seq<Block<P>>, timestamp: Float, payload: P)
    requires |chain| > 0
    ensures IsChainValid(h, Append(h, chain, timestamp, payload)) <==> IsChainValid(h, chain)
  {
    var r := Append(h, chain, timestamp, payload);
    if IsChainValid(h, chain) {
      IndicesUnchecked(h, chain, |chain|, timestamp, payload);
    } else {
      var i :| 1 <= i < |chain| && !LinkOk(h, chain, i);
      assert r[i] == chain[i] && r[i - 1] == chain[i - 1];
      assert !LinkOk(h, r, i);
    }
  }

  /** In a valid chain every block after the first recomputes its digest and names its predecessor. */
  lemma ValidChainIsLinked<P>(h: Header<P> -> string, chain: seq<Block<P>>, i: int)
    requires IsChainValid(h, chain) && 1 <= i < |chain|
    ensures CalculateHash(h, chain[i]) == chain[i].hash
    ensures chain[i].header.previousHash == chain[i - 1].hash
  {
    assert LinkOk(h, chain, i);
  }

  /** Tampering: if the digest is collision free, rewriting any field of a sealed block after the
      first without sealing it again makes the chain invalid, whatever the rest of the chain is. */
  lemma {:induction false} TamperDetected<P(!new)>(h: Header<P> -> string, chain: seq<Block<P>>, i: int,
                                             forged: Header<P>)
    requires Injective(h)
    requires 1 <= i < |chain| && Sealed(h, chain[i])
    requires forged != chain[i].header
    ensures !IsChainValid(h, chain[i := Block(forged, chain[i].hash)])
  {
    var tampered := chain[i := Block(forged, chain[i].hash)];
    assert h(forged) != h(chain[i].header);
    assert !LinkOk(h, tampered, i);
  }

  /** The scan reports the first tampered block: when all earlier blocks pass, a rewritten sealed
      block at `i` is the block the validation loop stops at, with a digest fault. */
  lemma {:induction false} TamperLocated<P(!new)>(h: Header<P> -> string, chain: seq<Block<P>>, i: int,
                                            forged: Header<P>)
    requires Injective(h)
    requires 1 <= i < |chain| && Sealed(h, chain[i])
    requires forged != chain[i].header
    requires forall j :: 1 <= j < i ==> LinkOk(h, chain, j)
    ensures FirstFault(h, chain[i := Block(forged, chain[i].hash)], 1) == Some(InvalidHash(i))
  {
    var tampered := chain[i := Block(forged, chain[i].hash)];
    forall j | 1 <= j < i
      ensures LinkOk(h, tampered, j)
    {
      assert LinkOk(h, chain, j);
      assert tampered[j] == chain[j] && tampered[j - 1] == chain[j - 1];
    }
    assert h(forged) != h(chain[i].header);
    assert !LinkOk(h, tampered, i);
    var r := FirstFault(h, tampered, 1);
    assert r.Some? && !LinkOk(h, tampered, r.value.at);
    assert r.value.at == i;
  }
}

=== FILE: common.dfy ===
/** Small shared vocabulary: an optional value and an opaque floating-point number. */
module Common {

  /** A value that may be absent; a failed peer fetch is `None`. */
  datatype Option<+T> = None | Some(value: T)

  /** A binary64 floating-point number kept as its bit pattern. The ledger never computes with
      timestamps or confidence scores; they only feed the block digest, so they stay opaque. */
  datatype Float = Float(bits: bv64)

  /** The bit pattern of the literal `0.0`. */
  const Zero: Float := Float(0)
}

=== FILE: demo_ledger.dfy ===
/** The demonstration ledger (`blockchain_demo/blockchain/blockchain.py`): the same sealing, genesis
    and append logic as the backend ledger, over a payload of an image (as base64 text) and a list of
    numbers. It has no validation and no peers. Reading the image file and the clock are left to the
    caller, who passes the base64 text and the current time in. */
module DemoLedger {
  import opened Common
  import opened Chain

  /** What a demo block carries besides its index, timestamp and link. */
  datatype Reading = Reading(imageData: string, numbers: seq<int>)

  /** The digest over index, timestamp, image data, numbers and predecessor digest. */
  type Digest = Header<Reading> -> string

  type DemoBlock = Block<Reading>

  /** A block's attribute dictionary, as saved to and loaded from the chain file. */
  datatype DemoDict = DemoDict(index: int, timestamp: Float, imageData: string, numbers: seq<int>,
                               previousHash: string, hash: string)

  /** `Block(...)`: the five fields stored as given, sealed with their digest. */
  function NewBlock(h: Digest, index: int, timestamp: Float, imageData: string, numbers: seq<int>,
                    previousHash: string): (b: DemoBlock)
    ensures b.hash == h(Header(index, timestamp, Reading(imageData, numbers), previousHash))
    ensures ToDict(b) == DemoDict(index, timestamp, imageData, numbers, previousHash, b.hash)
  {
    Seal(h, index, timestamp, Reading(imageData, numbers), previousHash)
  }

  /** The five hashed attributes read back out of a dictionary. */
  function HeaderOf(d: DemoDict): Header<Reading>
  {
    Header(d.index, d.timestamp, Reading(d.imageData, d.numbers), d.previousHash)
  }

  /** `to_dict`: every attribute, the stored digest included. */
  function ToDict(b: DemoBlock): (d: DemoDict)
    ensures HeaderOf(d) == b.header && d.hash == b.hash
  {
    DemoDict(b.header.index, b.header.timestamp, b.header.payload.imageData, b.header.payload.numbers,
             b.header.previousHash, b.hash)
  }

  /** One entry of `load_chain`: the block is built from the stored fields and its digest then
      overwritten by the stored one, never recomputed. */
  function FromDict(d: DemoDict): (b: DemoBlock)
    ensures ToDict(b) == d
  {
    Block(HeaderOf(d), d.hash)
  }

  /** Converting a block to its dictionary and back gives the same block. */
  lemma DictRoundTrip(b: DemoBlock)
    ensures FromDict(ToDict(b)) == b
  {
  }

  /** `load_chain`: the stored dictionaries become blocks in order, each keeping its stored digest. */
  function LoadChain(stored: seq<DemoDict>): (chain: seq<DemoBlock>)
    ensures |chain| == |stored|
    ensures forall i :: 0 <= i < |stored| ==> chain[i].hash == stored[i].hash && ToDict(chain[i]) == stored[i]
  {
    seq(|stored|, i requires 0 <= i < |stored| => FromDict(stored[i]))
  }

  /** A stored digest survives loading even when it does not match the stored fields: loading
      never seals. */
  lemma LoadKeepsForgedDigest(h: Digest, d: DemoDict)
    requires d.hash != h(HeaderOf(d))
    ensures !Sealed(h, LoadChain([d])[0]) && LoadChain([d])[0].hash == d.hash
  {
  }

  /** `create_genesis_block`: index 0, image data "GENESIS", numbers [0, 0, 0], predecessor "0". */
  function GenesisBlock(h: Digest, now: Float): (g: DemoBlock)
    ensures Sealed(h, g)
    ensures ToDict(g) == DemoDict(0, now, "GENESIS", [0, 0, 0], GenesisPreviousHash, g.hash)
  {
    Genesis(h, now, Reading("GENESIS", [0, 0, 0]))
  }

  /** The constructor: load the stored chain and, if nothing was loaded, seed the genesis block. */
  function Init(h: Digest, stored: seq<DemoDict>, now: Float): (chain: seq<DemoBlock>)
    ensures |chain| > 0
    ensures |stored| == 0 ==> chain == [GenesisBlock(h, now)] && IsChainValid(h, chain)
    ensures |stored| > 0 ==> |chain| == |stored| &&
                             forall i :: 0 <= i < |stored| ==> ToDict(chain[i]) == stored[i]
  {
    ShortChainsAreValid(h, [GenesisBlock(h, now)]);
    if |stored| == 0 then [GenesisBlock(h, now)] else LoadChain(stored)
  }

  /** `add_block_from_data`: a block for the image and numbers, indexed by the current length and
      linked to the tail's digest; the earlier blocks stay as they were, and the grown chain has all
      its links holding exactly when the old one did. */
  function AddBlockFromData(h: Digest, chain: seq<DemoBlock>, imageBase64: string, numbers: seq<int>,
                            now: Float): (r: seq<DemoBlock>)
    requires |chain| > 0
    ensures |r| == |chain| + 1 && r[..|chain|] == chain
    ensures Sealed(h, r[|chain|])
    ensures ToDict(r[|chain|]) == DemoDict(|chain|, now, imageBase64, numbers, chain[|chain| - 1].hash, r[|chain|].hash)
    ensures IsChainValid(h, r) <==> IsChainValid(h, chain)
  {
    AppendKeepsValid(h, chain, now, Reading(imageBase64, numbers));
    Append(h, chain, now, Reading(imageBase64, numbers))
  }

  /** Whatever sequence of additions follows a fresh start, every link of the chain holds. */
  lemma {:induction false} FreshChainStaysLinked(h: Digest, now: Float, additions: seq<(string, seq<int>, Float)>)
    ensures IsChainValid(h, Replay(h, [GenesisBlock(h, now)], additions))
  {
    ShortChainsAreValid(h, [GenesisBlock(h, now)]);
    ReplayKeepsValid(h, [GenesisBlock(h, now)], additions);
  }

  /** Adding the given (image, numbers, time) triples one after another. */
  function Replay(h: Digest, chain: seq<DemoBlock>, additions: seq<(string, seq<int>, Float)>): (r: seq<DemoBlock>)
    requires |chain| > 0
    ensures |r| == |chain| + |additions| && r[..|chain|] == chain
    decreases |additions|
  {
    if |additions| == 0 then chain
    else
      var next := AddBlockFromData(h, chain, additions[0].0, additions[0].1, additions[0].2);
      var r := Replay(h, next, additions[1..]);
      assert r[..|chain|] == r[..|next|][..|chain|];
      r
  }

  /** Replaying additions onto a chain whose links hold gives a chain whose links hold. */
  lemma {:induction false} ReplayKeepsValid(h: Digest, chain: seq<DemoBlock>, additions: seq<(string, seq<int>, Float)>)
    requires |chain| > 0 && IsChainValid(h, chain)
    ensures IsChainValid(h, Replay(h, chain, additions))
    decreases |additions|
  {
    if |additions| > 0 {
      var next := AddBlockFromData(h, chain, additions[0].0, additions[0].1, additions[0].2);
      ReplayKeepsValid(h, next, additions[1..]);
    }
  }
}
